=== FILE: README.md ===
# ustar archive navigator, modelled in Dafny

This project models the read-only navigation of a POSIX ustar archive in
`lib_tar.c`. The code validates an archive (`check_archive`), answers
existence and type queries about entries (`exists`, `is_dir`, `is_file`,
`is_symlink`), lists the direct children of a directory up to a caller-given
capacity (`list`), and reads a file's contents from an offset into a bounded
buffer (`read_file`). It also models the path helper `count_slashes` of
`helper.h`.

The archive is an immutable byte sequence (`seq<bv8>`), and the file
descriptor's cursor is an explicit `nat`. Every operation is a pure function
of the archive and the cursor it starts from. It returns the C return value,
the out-parameters (`*no_entries` and `entries`, or `*len` and `dest`) and
the cursor it leaves behind. The model keeps the code's cursor behaviour
exactly:

- `exists` and the `is_*` queries start from the current cursor.
- `is_dir` never rewinds.
- `exists`, `is_file`, `is_symlink` and `read_file` leave the cursor
  mid-archive when they succeed.
- Every error return of `check_archive` leaves the cursor just past the
  failing header.

The header layout, the typeflags, `"ustar\0"`, `"00"`, the chksum rule and
the padding of payloads to 512-byte blocks follow the ustar Interchange
Format of the `pax` description in IEEE Std 1003.1-2017.

Modules, in dependency order:

- `CStrings` covers C strings. A path is a `CString`, meaning bytes with no
  NUL. A header's name and linkname are the field's bytes before its first
  NUL.
- `Octal` is `TAR_INT`, the strtol-style base-8 reading of a numeric field,
  together with the zero-padded octal writing an archiver uses.
- `Ustar` holds the 512-byte header layout, the field accessors, the three
  validity checks (magic, version, checksum) and the payload padding.
- `Stream` is `read` on a byte sequence, which obtains at most the requested
  count and stops at the end of the archive. It also defines the reply and
  hop-limit datatypes.
- `Check` models `check_archive`, the only walk that skips payloads.
- `Scan` models `exists`, `is_dir`, `is_file` and `is_symlink`. They share
  one loop that matches on a name prefix and treats every block as a
  header.
- `Listing` models `list` and its symbolic-link redirect.
- `Reader` models `read_file`, with its link following and its bounded read.
- `Helper` models `count_slashes`.

Several operations are paired with a reference definition that states the
same result without following the loop:

- `Run` is the blocks a query scan examines.
- `Chain` is the headers the validator visits.
- `Children` is the direct children in archive order.
- `FirstSettling` is the header that decides a read.
- `SlashIndices` is the set of slash positions.

Lemmas connect each loop with its reference definition for all inputs.

Three behaviours of the code are worth stating on their own:

- Not every operation restores the cursor to 0. `check_archive` rewinds
  only on success, `list` and `read_file` rewind on some returns, and the
  queries rewind on some returns, as listed above.
- A short payload read is not an error. `read_file` returns the bytes it
  obtained, and the remaining count it returns includes the bytes the
  archive did not hold.
- Links are followed selectively. `list` and `read_file` follow symbolic
  links, only `read_file` follows hard links, and `exists` and the `is_*`
  queries follow neither.

## Model

| member | source | states |
|---|---|---|
| Helper.CountSlashes | helper.h:9-15 | the count is exactly the number of positions holding '/', never more than strlen(path), and 0 exactly when the path has no '/' (the empty path included) |
| Helper.SlashIndicesAppend | helper.h:11-12 | appending '/' to a path adds exactly one to the count, and appending any other byte leaves it unchanged |
| Helper.SlashIndicesBound | helper.h:10-14 | a path never has more slashes than bytes |
| CStrings.CStr | lib_tar.c:241 | a name read from a fixed-width field is a prefix of the field, and it is followed by a NUL unless it fills the field |
| CStrings.CStrTerminated | lib_tar.c:332 | a string written with its terminator reads back unchanged, whatever bytes follow the NUL |
| CStrings.CStrFull | lib_tar.c:332 | a field with no NUL reads back whole |
| Octal.SkipSpaces | lib_tar.c:50 | TAR_INT skips exactly the leading white-space bytes and stops at the first byte that is not white space |
| Octal.DigitRun | lib_tar.c:50 | TAR_INT reads the longest run of octal digits at the front, stopping at the first byte that is not a digit |
| Octal.OctalValue | lib_tar.c:50 | n octal digits denote a value below 8^n |
| Octal.OctalValueOfEncode | lib_tar.c:50 | a number written as zero-padded octal digits denotes that number |
| Octal.DigitRunStopsAtNonDigit | lib_tar.c:50 | a digit string followed by a non-digit byte (NUL or space, as archivers terminate the field) is read exactly up to that byte |
| Octal.TarIntRoundTrip | lib_tar.c:36 | a size or checksum written as octal and terminated by a non-digit byte decodes to the number that was written |
| Octal.TarInt | lib_tar.c:36 | TAR_INT: white space skipped, then the run of octal digits read as a number; its contract is stated by Octal.TarIntRoundTrip and Octal.TarIntNoDigits |
| Octal.TarIntNoDigits | lib_tar.c:36 | a field with no octal digit after its leading white space reads as 0, as strtol gives when it finds no digits |
| Ustar.ComputedChecksumMeaning | lib_tar.c:36-43 | the computed checksum equals the byte sum of the block with the 8 chksum bytes traded for spaces, and lies between 256 and 504*255+256, below 512*255 |
| Ustar.Padded | lib_tar.c:50-51 | the skipped payload is a whole number of 512-byte blocks, at least the size and less than one block more |
| Stream.ReadCount | lib_tar.c:74 | read obtains at most the requested count, and it obtains fewer only when it reaches the end of the archive |
| Check.ReadObtainsWholeBlocks | lib_tar.c:27 | in an archive of whole blocks, a read at a block boundary obtains some bytes exactly when it obtains a whole header |
| Check.Chain | lib_tar.c:27-55 | the walk visits only whole blocks whose name does not start with NUL, starting at the cursor; it is empty exactly when the first block ends the walk |
| Check.ChainEnds | lib_tar.c:27-52 | a non-empty walk ends at the block that follows its last header once that header's payload is skipped: that block is incomplete or named with NUL |
| Check.CheckFrom | lib_tar.c:27-59 | the validation loop: its result is never below -3, a non-negative result is at least the headers already counted with the cursor rewound, and a negative one leaves the cursor past a header; Check.CheckFromCounts and Check.CheckFromFirstFailure tie it to the walk |
| Check.CheckArchive | lib_tar.c:19-60 | check_archive returns -3, -2, -1 or a count; a count comes with the cursor rewound, and an error leaves the cursor past the first block; Check.CheckArchiveCounts and Check.CheckArchiveFirstFailure state which result |
| Check.CheckFromCounts | lib_tar.c:27-59 | from any cursor, the loop succeeds exactly when every header it visits passes all three checks, and then the count grows by the number of headers and the cursor is left at 0 |
| Check.CheckArchiveCounts | lib_tar.c:19-60 | check_archive returns a non-negative value exactly when every visited header is valid, that value is the number of headers and the cursor is rewound; otherwise it returns -1, -2 or -3 |
| Check.CheckFromFirstFailure | lib_tar.c:27-47 | from any cursor, the first visited header that fails a check decides the loop's result: -1 on a bad magic, else -2 on a bad version, else -3 on a bad checksum, with the cursor just past that header |
| Check.CheckArchiveFirstFailure | lib_tar.c:27-47 | the first invalid header decides the result: -1 on a bad magic, else -2 on a bad version, else -3 on a bad checksum, with the cursor just past that header |
| Check.ChainStride | lib_tar.c:49-52 | consecutive visited headers are 512 bytes plus the size rounded up to whole blocks apart |
| Scan.Run | lib_tar.c:74-80 | a query scan examines the blocks at cursor, cursor+512, ... that are whole and not named with NUL, and stops at the first block that is incomplete or named with NUL |
| Scan.ScanPrefix | lib_tar.c:74-87 | the loop the queries share stops at a whole block at or after the cursor (a match or a NUL-named block) or, on a short read, at or past the end of the archive; Scan.ScanPrefixFindsFirstHit states where |
| Scan.Exists | lib_tar.c:71-90 | exists returns 0 or 1, with the cursor beyond its start on 1 and rewound on 0; Scan.ExistsSpec states which |
| Scan.IsDir | lib_tar.c:101-124 | is_dir returns 0 or 1 and never moves the cursor backwards; Scan.IsDirSpec states which and where |
| Scan.IsFile | lib_tar.c:135-161 | is_file returns 0 or 1, with the cursor beyond its start on 1 and rewound on 0; Scan.IsFileSpec states which |
| Scan.IsSymlink | lib_tar.c:171-195 | is_symlink returns 0 or 1, with the cursor beyond its start on 1 and rewound on 0; Scan.IsSymlinkSpec states which |
| Scan.ScanPrefixFindsFirstHit | lib_tar.c:74-87 | the query loop stops at the first block of the scan whose name starts with the path, and when no block matches it stops where the scan ends |
| Scan.SomeHitIffMatch | lib_tar.c:83-86 | the query loop finds a match exactly when some block of the scan has a name starting with the path |
| Scan.ExistsSpec | lib_tar.c:71-90 | exists returns 1 exactly when some block of the scan has a name starting with the path (a prefix test, so "dir" matches "dir2/x"), leaving the cursor past the first such block; otherwise it returns 0 and rewinds |
| Scan.ExistsResumes | lib_tar.c:83-89 | after a successful exists, a second call with the same path resumes past the first match and succeeds exactly when a later block of the scan also matches |
| Scan.IsDirSpec | lib_tar.c:101-124 | is_dir returns 1 exactly when the first matching block is a directory ('5'), and it never rewinds: the cursor is left just past the first matching block, else just past the NUL-named block that ends the scan, else where the final short read leaves it, and so always beyond a cursor inside the archive |
| Scan.IsFileSpec | lib_tar.c:135-161 | is_file returns 1 exactly when the first matching block is a regular file ('0' or NUL), leaving the cursor past it; otherwise it returns 0 and rewinds |
| Scan.IsSymlinkSpec | lib_tar.c:171-195 | is_symlink returns 1 exactly when the first matching block is a symbolic link ('2'), leaving the cursor past it; otherwise it returns 0 and rewinds |
| Listing.Normalize | lib_tar.c:224-226 | the normalised path ends in '/': a path already ending in '/' is returned unchanged, and any other path (the empty one included) gets one '/' appended |
| Listing.NormalizeIdempotent | lib_tar.c:224-226 | normalising a normalised path changes nothing |
| Listing.FirstSlash | lib_tar.c:270 | strchr finds the first '/', or reports that there is none |
| Listing.ListedIsDirectChild | lib_tar.c:259-274 | the loop's tests on a name (it starts with the normalised path, the remainder is neither empty nor "/", and no '/' of the remainder is followed by another byte) hold exactly for the direct children |
| Listing.DocumentedExample | lib_tar.c:197-207 | in "dir/", the names "dir/a", "dir/b", "dir/c/" and "dir/e/" are direct children, and "dir/c/d" and "dir/" itself are not |
| Listing.ListScanStep | lib_tar.c:258-281 | a block that is not the link adds its name when it is a direct child and there is room, and otherwise adds nothing |
| Listing.ScanStep | lib_tar.c:258-288 | at a block before the link, the loop and the reference listing advance together, or the loop stops with the promised -1 reply when the block's name is a direct child that does not fit |
| Listing.ListScan | lib_tar.c:232-303 | the listing loop returns -1, 0 or 1 with at most the capacity written and `*no_entries` at most the capacity; on -1 `*no_entries` is the capacity and the cursor is rewound; the lemmas below tie it to the direct children |
| Listing.List | lib_tar.c:219-304 | list returns -1, 0 or 1 with at most the capacity written; -1 comes with `*no_entries` equal to the capacity and the cursor rewound; Listing.ListWithoutLink, Listing.ListOverflowsBeforeLink and Listing.ListThroughLink state which |
| Listing.ListScanCollects | lib_tar.c:232-303 | with no symbolic link named path ahead, the loop collects the direct children in archive order after the names already written, or stops with -1 at the first one beyond the capacity |
| Listing.ListWithoutLink | lib_tar.c:219-304 | without a symbolic link named path, list returns every direct child in archive order with 1 (0 when there are none), or the first capacity of them with -1 when there are more; it rewinds in both cases |
| Listing.ListScanReaches | lib_tar.c:232-290 | before the first symbolic link named path, the loop passes over each block, writing the direct children among them |
| Listing.ListThroughLink | lib_tar.c:240-256 | at the first symbolic link named path: if is_file of the target, asked from just past the link, succeeds, list returns 0; otherwise is_dir of the target plus '/' runs from offset 0, and list returns 0 when it fails and is the listing of the target directory when it succeeds; both failures leave `*no_entries` at the capacity. It requires the direct children before the link to fit the capacity; the other case is Listing.ListOverflowsBeforeLink |
| Listing.ListScanOverflows | lib_tar.c:276-288 | when a direct child beyond the capacity comes before any symbolic link named path, the loop stops there with -1, the names already written plus the first children up to the capacity, and the cursor rewound |
| Listing.ListOverflowsBeforeLink | lib_tar.c:232-288 | when more direct children than the capacity come before the first symbolic link named path, list returns -1 with `*no_entries` equal to the capacity and the first capacity children, rewinds, and never reaches the link |
| Listing.ListScanMoreFuel | lib_tar.c:249-255 | a listing that completes within some bound on the symbolic links followed completes the same way with any larger bound |
| Reader.ReadWindow | lib_tar.c:345-363 | the bounded read returns -2 exactly when the offset is at or past the size, with the cursor left past the header, and -1 exactly when nothing could be read, with the cursor left at the offset within the contents; it never returns below -2, and otherwise it copies min(len, available) bytes of the contents from the offset, and the bytes copied plus the value returned equal size minus offset |
| Reader.ReadScan | lib_tar.c:330-370 | the read loop returns -2, -1 or a non-negative remaining count, with `*len` the bytes written, never above the buffer size, and 0 on an error; Reader.ReadScanFirstSettler and Reader.ReadScanNoSettler state which |
| Reader.ReadFile | lib_tar.c:324-371 | read_file returns -2, -1 or a non-negative remaining count, with `*len` the bytes written, never above the buffer size, and 0 on an error; Reader.ReadFileResolves states which |
| Reader.ReadPayload | lib_tar.c:341-364 | the same, stated for the file whose header is at a position: -2 exactly when offset >= size, with `*len` = 0 and the cursor past the header; -1 exactly when no byte could be read, with `*len` = 0 and the cursor at header + 512 + offset (no rewind); never below -2; otherwise the copied bytes are the contents from the offset, `*len` plus the return value is size minus offset, and the cursor is just past the copied bytes |
| Reader.WindowRead | lib_tar.c:351-354 | seeking to the offset and then reading obtains the file's own bytes from that offset, as far as the archive holds them |
| Reader.ReadScanNoSettler | lib_tar.c:330-370 | when no block of the scan is a link or regular file named exactly path, the read fails with -1, `*len` = 0 and the cursor rewound |
| Reader.ReadScanFirstSettler | lib_tar.c:330-364 | the first block named exactly path that is a link or regular file decides the read: a link restarts it on the link's target, and a regular file is read; blocks of other types with that name are passed over |
| Reader.ReadFileResolves | lib_tar.c:324-371 | read_file fails with -1 when nothing settles the path, and otherwise returns what the first settling header gives, following symbolic and hard links |
| Reader.ReadScanMoreFuel | lib_tar.c:335-338 | a read that completes within some bound on the links followed completes the same way with any larger bound |
| Reader.ReadsResume | lib_tar.c:353-363 | reading again from the offset where a partial read stopped yields the next bytes of the contents, and the remaining count drops by exactly the bytes obtained |

## Left out

- Real `read` and `lseek` on a file descriptor are replaced by slicing the byte sequence at the cursor. A read returns min(requested, bytes left), and no other system-call failure is modelled, so the -1 a failing `read` would produce is not represented.
- Reader.ReadFile: a link cycle makes the C recursion diverge. The model follows at most `fuel` links and returns `HopLimit` when they run out.
- Listing.List: the same applies to the symbolic-link recursion of `list`, which returns `HopLimit` when its `fuel` runs out.
- Listing.List: `entries` is the names written by the pass that returns. Slots filled by an outer pass before a symbolic-link redirect are not modelled.
- C memory details are not modelled: `strcat` into the 100-byte linkname, `strncpy` into the caller's buffers, the 512-byte `normalized_path` buffer of `list` (lib_tar.c:225), which overflows for a path of 511 bytes or more, and `strcmp`, `strlen` or `strncmp` on a 100-byte name with no NUL running into the next header field. The `strncmp` prefix tests (lib_tar.c:83, 113, 147, 183, 259) compare as many bytes as the path has, so a path longer than 100 bytes is compared against the bytes of `mode` and later fields, where the model reports no match. A name is the field up to its first NUL, or the whole field.
- `lib_tar.h` is not part of this model. Its definitions are taken as follows:
  - `tar_header_t` is the 512-byte ustar layout.
  - `TMAGIC` is "ustar" followed by NUL, with length 6.
  - `TVERSION` is "00", with length 2.
  - The typeflags are the ustar characters.
  - `TAR_INT` is `strtol(field, NULL, 8)`.
- `normalize_path` is not part of this model. It is taken to append '/' unless the path already ends with one, and to return the length of the normalised path, which `list` uses as `path_len`.
- Octal.TarInt: the sign characters strtol accepts are not modelled. The reading is also confined to the field's own bytes, whereas strtol on a field with no terminator can run into the next field.
- Check.CheckArchive: the archive must be a whole number of 512-byte blocks. The code's handling of a partial trailing block (`read` > 0 with stale buffer contents) is left out.
- Check.CheckArchive: the count is an unbounded integer. The C `int valid_headers` could overflow only beyond 2^31 headers.
- Listing.List: the archive size is an unbounded integer. The code stores `lseek(tar_fd, 0, SEEK_END)` in an `int end`, which wraps for an archive of 2^31 bytes or more; its loop then stops early or never runs, and `list` returns 0 or a truncated listing. The model scans every whole block of the archive.
- Helper.CountSlashes: the count is an unbounded integer. The C `int count` could overflow only for a path with more than 2^31 - 1 slashes.

=== FILE: check.dfy ===
/** `check_archive`: the only function that skips payloads. It walks the
    headers from offset 0, each time jumping over the payload rounded up to
    whole blocks, until a block whose name begins with NUL or the end of the
    archive, and validates magic, version and checksum of every header it
    visits, in that order. */
module Check {
  import opened CStrings
  import opened Ustar
  import opened Stream

  /** The archive is a whole number of blocks. */
  predicate Aligned(a: seq<bv8>) {
    |a| % BLOCK == 0
  }

  /** Where the header after the one at p starts. */
  function Next(a: seq<bv8>, p: nat): nat
    requires HasBlock(a, p)
  {
    p + BLOCK + Padded(SizeAt(a, p))
  }

  /** In an archive of whole blocks, a read at a block boundary obtains
      something exactly when it obtains a whole block. */
  lemma ReadObtainsWholeBlocks(a: seq<bv8>, c: nat)
    requires Aligned(a) && c % BLOCK == 0
    ensures ReadCount(a, c, BLOCK) > 0 <==> HasBlock(a, c)
  {
  }

  /** The header positions the validator visits from c, in order, up to the
      first block that ends the walk. The walk ends when `read` obtains
      nothing or the block's name begins with NUL; `Stops` asks for a whole
      block, which in an aligned archive is the same test (see
      `ReadObtainsWholeBlocks`). */
  function Chain(a: seq<bv8>, c: nat): (r: seq<nat>)
    ensures forall k | 0 <= k < |r| :: HasBlock(a, r[k]) && !Stops(a, r[k])
    ensures |r| == 0 <==> Stops(a, c)
    ensures |r| > 0 ==> r[0] == c
    decreases |a| - c
  {
    if Stops(a, c) then [] else [c] + Chain(a, Next(a, c))
  }

  /** The validation loop from cursor c, with `seen` headers already counted. */
  function CheckFrom(a: seq<bv8>, c: nat, seen: nat): (r: Answer)
    ensures r.ret >= -3
    ensures r.ret >= 0 ==> r.ret >= seen && r.cursor == 0
    ensures r.ret < 0 ==> r.cursor >= c + BLOCK
    decreases |a| - c
  {
    if Stops(a, c) then Answer(seen, 0)
    else if !MagicOk(a, c) then Answer(-1, c + BLOCK)
    else if !VersionOk(a, c) then Answer(-2, c + BLOCK)
    else if !ChecksumOk(a, c) then Answer(-3, c + BLOCK)
    else CheckFrom(a, Next(a, c), seen + 1)
  }

  /** check_archive: the number of headers, or the code of the first failed
      check. */
  function CheckArchive(a: seq<bv8>): (r: Answer)
    requires Aligned(a)
    ensures r.ret >= -3
    ensures r.ret >= 0 ==> r.cursor == 0
    ensures r.ret < 0 ==> r.cursor >= BLOCK
  {
    CheckFrom(a, 0, 0)
  }

  ghost predicate AllOk(a: seq<bv8>, ch: seq<nat>)
    requires forall k | 0 <= k < |ch| :: HasBlock(a, ch[k])
  {
    forall k | 0 <= k < |ch| :: HeaderOk(a, ch[k])
  }

  lemma {:induction false} CheckFromCounts(a: seq<bv8>, c: nat, seen: nat)
    ensures var ch := Chain(a, c); var r := CheckFrom(a, c, seen);
      && (r.ret >= 0 <==> AllOk(a, ch))
      && (r.ret >= 0 ==> r.ret == seen + |ch| && r.cursor == 0)
      && (r.ret < 0 ==> r.ret in {-1, -2, -3})
    decreases |a| - c
  {
    var ch := Chain(a, c);
    if Stops(a, c) {
      assert ch == [];
    } else {
      assert ch[0] == c && ch[1..] == Chain(a, Next(a, c));
      AllOkStep(a, ch);
      if HeaderOk(a, c) {
        CheckFromCounts(a, Next(a, c), seen + 1);
      }
    }
  }

  lemma AllOkStep(a: seq<bv8>, ch: seq<nat>)
    requires |ch| > 0 && forall k | 0 <= k < |ch| :: HasBlock(a, ch[k])
    ensures AllOk(a, ch) <==> HeaderOk(a, ch[0]) && AllOk(a, ch[1..])
  {
  }

  /** On success check_archive returns how many headers the walk visits, and
      rewinds; it fails exactly when some visited header fails a check. */
  lemma CheckArchiveCounts(a: seq<bv8>)
    requires Aligned(a)
    ensures var ch := Chain(a, 0); var r := CheckArchive(a);
      && (r.ret >= 0 <==> AllOk(a, ch))
      && (r.ret >= 0 ==> r.ret == |ch| && r.cursor == 0)
      && (r.ret < 0 ==> r.ret in {-1, -2, -3})
  {
    CheckFromCounts(a, 0, 0);
  }

  lemma {:induction false} CheckFromFirstFailure(a: seq<bv8>, c: nat, seen: nat, k: nat)
    requires k < |Chain(a, c)| && !HeaderOk(a, Chain(a, c)[k])
    requires forall j | 0 <= j < k :: HeaderOk(a, Chain(a, c)[j])
    ensures var p := Chain(a, c)[k]; var r := CheckFrom(a, c, seen);
      && r.cursor == p + BLOCK
      && (r.ret == -1 <==> !MagicOk(a, p))
      && (r.ret == -2 <==> MagicOk(a, p) && !VersionOk(a, p))
      && (r.ret == -3 <==> MagicOk(a, p) && VersionOk(a, p) && !ChecksumOk(a, p))
    decreases |a| - c
  {
    var ch := Chain(a, c);
    if k > 0 {
      assert HeaderOk(a, ch[0]);
      var ch' := Chain(a, Next(a, c));
      assert ch[1..] == ch';
      forall j | 0 <= j < k - 1
        ensures HeaderOk(a, ch'[j])
      {
        assert ch'[j] == ch[j + 1];
      }
      CheckFromFirstFailure(a, Next(a, c), seen + 1, k - 1);
    }
  }

  /** check_archive reports the first header of the walk that fails, with the
      code of the first check it fails (magic -1, then version -2, then
      checksum -3), and leaves the cursor just past that header. */
  lemma CheckArchiveFirstFailure(a: seq<bv8>, k: nat)
    requires Aligned(a)
    requires k < |Chain(a, 0)| && !HeaderOk(a, Chain(a, 0)[k])
    requires forall j | 0 <= j < k :: HeaderOk(a, Chain(a, 0)[j])
    ensures var p := Chain(a, 0)[k]; var r := CheckArchive(a);
      && r.cursor == p + BLOCK
      && (r.ret == -1 <==> !MagicOk(a, p))
      && (r.ret == -2 <==> MagicOk(a, p) && !VersionOk(a, p))
      && (r.ret == -3 <==> MagicOk(a, p) && VersionOk(a, p) && !ChecksumOk(a, p))
  {
    CheckFromFirstFailure(a, 0, 0, k);
  }

  /** The walk ends at the block after its last header, once that header's
      payload is skipped. */
  lemma {:induction false} ChainEnds(a: seq<bv8>, c: nat)
    requires |Chain(a, c)| > 0
    ensures var ch := Chain(a, c); Stops(a, Next(a, ch[|ch| - 1]))
    decreases |a| - c
  {
    var ch := Chain(a, c);
    var rest := Chain(a, Next(a, c));
    assert ch == [c] + rest;
    if |rest| > 0 {
      ChainEnds(a, Next(a, c));
      assert ch[|ch| - 1] == rest[|rest| - 1];
    }
  }

  /** Consecutive headers of the walk are one header block plus the payload,
      rounded up to whole blocks (`Padded`), apart. */
  lemma {:induction false} ChainStride(a: seq<bv8>, c: nat, k: nat)
    requires k + 1 < |Chain(a, c)|
    ensures var ch := Chain(a, c);
      && ch[k + 1] == ch[k] + BLOCK + Padded(SizeAt(a, ch[k]))
      && ch[k] + BLOCK + SizeAt(a, ch[k]) <= ch[k + 1] < ch[k] + 2 * BLOCK + SizeAt(a, ch[k])
    decreases k
  {
    var ch := Chain(a, c);
    assert ch[1..] == Chain(a, Next(a, c));
    if k > 0 {
      ChainStride(a, Next(a, c), k - 1);
      assert ch[k] == ch[1..][k - 1] && ch[k + 1] == ch[1..][k];
    }
  }
}

=== FILE: cstrings.dfy ===
/** C strings and fixed-width byte fields, as the archive code reads them.

    A `char *` argument of the archive functions is a NUL-terminated string:
    its contents never include the byte 0. A name field of a header is a
    fixed-width array that holds a string terminated by NUL, or fills the
    whole field when the name is exactly as long as the field. */
module CStrings {

  const NUL: bv8 := 0
  const SLASH: bv8 := 0x2F

  /** No byte of s is the terminator. */
  predicate NoNul(s: seq<bv8>) {
    forall i | 0 <= i < |s| :: s[i] != NUL
  }

  /** The contents of a C string (what strlen counts). */
  type CString = s: seq<bv8> | NoNul(s)

  /** The string stored in a fixed-width field: its bytes before the first
      NUL, or the whole field when there is none. */
  function CStr(field: seq<bv8>): (r: CString)
    ensures r <= field
    ensures |r| < |field| ==> field[|r|] == NUL
  {
    if |field| == 0 || field[0] == NUL then [] else [field[0]] + CStr(field[1..])
  }

  /** A field holding a string followed by its terminator reads back as that
      string, whatever bytes fill the rest of the field. */
  lemma {:induction false} CStrTerminated(s: CString, rest: seq<bv8>)
    ensures CStr(s + [NUL] + rest) == s
  {
    if |s| > 0 {
      assert (s + [NUL] + rest)[1..] == s[1..] + [NUL] + rest;
      CStrTerminated(s[1..], rest);
    }
  }

  /** A field with no NUL reads back whole. */
  lemma CStrFull(s: CString)
    ensures CStr(s) == s
  {
  }
}

=== FILE: helper.dfy ===
/** The path helper: counting the '/' separators of a path. */
module Helper {
  import opened CStrings

  /** The positions of s that hold a '/'. */
  ghost function SlashIndices(s: seq<bv8>): set<int> {
    set i | 0 <= i < |s| && s[i] == SLASH
  }

  /** Appending one byte adds its position to the slash set exactly when the
      byte is a '/'. */
  lemma SlashIndicesAppend(s: seq<bv8>, b: bv8)
    ensures |SlashIndices(s + [b])| == |SlashIndices(s)| + (if b == SLASH then 1 else 0)
  {
    var t := s + [b];
    if b == SLASH {
      assert SlashIndices(t) == SlashIndices(s) + {|s|};
    } else {
      assert SlashIndices(t) == SlashIndices(s);
    }
  }

  /** There are never more slashes than bytes. */
  lemma {:induction false} SlashIndicesBound(s: seq<bv8>)
    ensures |SlashIndices(s)| <= |s|
  {
    if |s| > 0 {
      var init := s[..|s| - 1];
      assert s == init + [s[|s| - 1]];
      SlashIndicesBound(init);
      SlashIndicesAppend(init, s[|s| - 1]);
    }
  }

  /** count_slashes: one pass over the string, counting the '/' bytes. */
  method CountSlashes(path: CString) returns (count: nat)
    ensures count == |SlashIndices(path)|
    ensures count <= |path|
    ensures count == 0 <==> forall i | 0 <= i < |path| :: path[i] != SLASH
  {
    count := 0;
    var i := 0;
    while i < |path|
      invariant 0 <= i <= |path|
      invariant count == |SlashIndices(path[..i])|
      invariant count <= i
      invariant count == 0 <==> forall j | 0 <= j < i :: path[j] != SLASH
    {
      assert path[..i + 1] == path[..i] + [path[i]];
      SlashIndicesAppend(path[..i], path[i]);
      if path[i] == SLASH {
        count := count + 1;
      }
      i := i + 1;
    }
    assert path[..i] == path;
  }
}

=== FILE: listing.dfy ===
/** `list`: the direct children of a directory, up to the caller's capacity.

    Unlike the queries, `list` rewinds first and reads every whole block of
    the archive up to its end, treating each as a header (it neither skips
    payloads nor stops at an empty name). A symbolic link whose name equals
    the requested path redirects the listing to the link's target. */
module Listing {
  import opened CStrings
  import opened Ustar
  import opened Stream
  import opened Scan

  /** normalize_path, whose definition is not part of this model, is assumed
      to append a '/' unless the path already ends with one. */
  function Normalize(path: CString): (r: CString)
    ensures |r| > 0 && r[|r| - 1] == SLASH
    ensures path <= r && |r| <= |path| + 1
    ensures |path| > 0 && path[|path| - 1] == SLASH ==> r == path
    ensures (|path| == 0 || path[|path| - 1] != SLASH) ==> r == path + [SLASH]
  {
    if |path| > 0 && path[|path| - 1] == SLASH then path else path + [SLASH]
  }

  lemma NormalizeIdempotent(path: CString)
    ensures Normalize(Normalize(path)) == Normalize(path)
  {
  }

  /** strchr(s, '/'): the index of the first '/', or |s| when there is none. */
  function FirstSlash(s: seq<bv8>): (i: nat)
    ensures i <= |s|
    ensures i < |s| ==> s[i] == SLASH
    ensures forall j | 0 <= j < i :: s[j] != SLASH
  {
    if |s| == 0 then 0 else if s[0] == SLASH then 0 else 1 + FirstSlash(s[1..])
  }

  /** The listing loop's test on a header name: it starts with the normalised
      path, the rest is neither empty nor "/", and the first '/' of the rest,
      if any, is not followed by another byte. */
  predicate Listed(np: CString, name: CString) {
    && np <= name
    && var rel := name[|np|..];
    && !(|rel| == 0 || rel == [SLASH])
    && !(FirstSlash(rel) < |rel| && FirstSlash(rel) + 1 < |rel|)
  }

  /** A direct child of the directory np: a longer name under np that has no
      '/' after np except, for a subdirectory, as its last byte. */
  predicate DirectChild(np: CString, name: CString) {
    && np <= name
    && |name| > |np|
    && name[|np|..] != [SLASH]
    && forall i | |np| <= i < |name| - 1 :: name[i] != SLASH
  }

  /** The loop's strchr test selects exactly the direct children. */
  lemma ListedIsDirectChild(np: CString, name: CString)
    ensures Listed(np, name) <==> DirectChild(np, name)
  {
  }

  /** The documented example: in "dir/" the names "dir/a", "dir/b", "dir/c/"
      and "dir/e/" are listed, and "dir/c/d" and "dir/" itself are not. */
  lemma DocumentedExample()
    ensures var dir: CString := [0x64, 0x69, 0x72, SLASH];
      && DirectChild(dir, dir + [0x61])
      && DirectChild(dir, dir + [0x62])
      && DirectChild(dir, dir + [0x63, SLASH])
      && DirectChild(dir, dir + [0x65, SLASH])
      && !DirectChild(dir, dir + [0x63, SLASH, 0x64])
      && !DirectChild(dir, dir)
  {
    var dir: CString := [0x64, 0x69, 0x72, SLASH];
    var cd: CString := dir + [0x63, SLASH, 0x64];
    assert cd[|dir| + 1] == SLASH;
  }

  /** What `list` hands back: its return value, the final `*no_entries`, the
      names it wrote to `entries` (in archive order), and the cursor. */
  datatype ListReply = ListReply(ret: int, count: nat, entries: seq<CString>, cursor: nat)

  /** The header at p is a symbolic link named exactly `path`. */
  predicate LinkNamed(a: seq<bv8>, p: nat, path: CString)
    requires HasBlock(a, p)
  {
    TypeAt(a, p) == SYMTYPE && NameAt(a, p) == path
  }

  /** The listing loop from cursor c, with the names `acc` already written. */
  function ListScan(a: seq<bv8>, path: CString, np: CString, cap: nat, c: nat,
                    acc: seq<CString>, fuel: nat): (r: Hops<ListReply>)
    requires |acc| <= cap
    ensures r.Done? ==> -1 <= r.value.ret <= 1 && r.value.count <= cap && |r.value.entries| <= cap
    ensures r.Done? && r.value.ret == -1 ==> r.value.count == cap && r.value.cursor == 0
    decreases fuel, |a| - c
  {
    if !HasBlock(a, c) then
      Done(ListReply(if |acc| == 0 then 0 else 1, |acc|, acc, 0))
    else if LinkNamed(a, c, path) then
      var link := LinkAt(a, c);
      var f := IsFile(a, c + BLOCK, link);
      if f.ret == 1 then Done(ListReply(0, cap, acc, f.cursor))
      else
        var target := link + [SLASH];
        var d := IsDir(a, f.cursor, target);
        if d.ret == 0 then Done(ListReply(0, cap, acc, d.cursor))
        else if fuel == 0 then HopLimit
        else ListScan(a, target, Normalize(target), cap, 0, [], fuel - 1)
    else if Listed(np, NameAt(a, c)) then
      if |acc| < cap then ListScan(a, path, np, cap, c + BLOCK, acc + [NameAt(a, c)], fuel)
      else Done(ListReply(-1, |acc|, acc, 0))
    else
      ListScan(a, path, np, cap, c + BLOCK, acc, fuel)
  }

  /** list(fd, path, entries, &no_entries) with capacity `cap`, following at
      most `fuel` symbolic links. */
  function List(a: seq<bv8>, path: CString, cap: nat, fuel: nat): (r: Hops<ListReply>)
    ensures r.Done? ==> -1 <= r.value.ret <= 1 && r.value.count <= cap && |r.value.entries| <= cap
    ensures r.Done? && r.value.ret == -1 ==> r.value.count == cap && r.value.cursor == 0
  {
    ListScan(a, path, Normalize(path), cap, 0, [], fuel)
  }

  /** Reference: the direct children of np among the whole blocks at c,
      c + 512, ... that start before `end`, in archive order. */
  function Children(a: seq<bv8>, np: CString, c: nat, end: nat): seq<CString>
    decreases |a| - c
  {
    if !HasBlock(a, c) || c >= end then [] else ChildAt(a, np, c) + Children(a, np, c + BLOCK, end)
  }

  /** The header at p as a direct child of np: its name, or nothing. */
  function ChildAt(a: seq<bv8>, np: CString, p: nat): seq<CString>
    requires HasBlock(a, p)
  {
    if DirectChild(np, NameAt(a, p)) then [NameAt(a, p)] else []
  }

  /** No whole block at c, c + 512, ... before `end` is a symbolic link named
      `path`. */
  predicate NoLinkBetween(a: seq<bv8>, path: CString, c: nat, end: nat)
    decreases |a| - c
  {
    !HasBlock(a, c) || c >= end || (!LinkNamed(a, c, path) && NoLinkBetween(a, path, c + BLOCK, end))
  }

  /** The reply `list` promises for the children `all`: every name when they
      fit (return 0 for none, 1 otherwise), else -1 with the first `cap`. */
  function Promised(all: seq<CString>, cap: nat): ListReply {
    if |all| <= cap then ListReply(if |all| == 0 then 0 else 1, |all|, all, 0)
    else ListReply(-1, cap, all[..cap], 0)
  }

  /** One step of the listing loop over a header that is not the link:
      its name is written when it is a direct child and there is room. */
  lemma ListScanStep(a: seq<bv8>, path: CString, np: CString, cap: nat, c: nat, acc: seq<CString>, fuel: nat)
    requires HasBlock(a, c) && !LinkNamed(a, c, path)
    requires |acc + ChildAt(a, np, c)| <= cap
    ensures ListScan(a, path, np, cap, c, acc, fuel)
         == ListScan(a, path, np, cap, c + BLOCK, acc + ChildAt(a, np, c), fuel)
  {
    ListedIsDirectChild(np, NameAt(a, c));
    if !DirectChild(np, NameAt(a, c)) {
      assert acc + ChildAt(a, np, c) == acc;
    }
  }

  lemma {:induction false} ListScanCollects(a: seq<bv8>, path: CString, np: CString, cap: nat,
                                            c: nat, acc: seq<CString>, fuel: nat)
    requires |acc| <= cap
    requires NoLinkBetween(a, path, c, |a|)
    ensures ListScan(a, path, np, cap, c, acc, fuel) == Done(Promised(acc + Children(a, np, c, |a|), cap))
    decreases |a| - c
  {
    if !HasBlock(a, c) {
      assert acc + [] == acc;
    } else {
      ScanStep(a, path, np, cap, c, acc, fuel, |a|);
      var acc' := acc + ChildAt(a, np, c);
      if |acc'| <= cap {
        ListScanCollects(a, path, np, cap, c + BLOCK, acc', fuel);
      }
    }
  }

  /** One block before `end` that is not the link: the loop and the
      reference definition both advance past it, or the loop stops there with
      the promised -1 reply when its name does not fit. */
  lemma ScanStep(a: seq<bv8>, path: CString, np: CString, cap: nat,
                 c: nat, acc: seq<CString>, fuel: nat, end: nat)
    requires c < end && HasBlock(a, c) && NoLinkBetween(a, path, c, end)
    requires |acc| <= cap
    ensures var acc' := acc + ChildAt(a, np, c);
      && NoLinkBetween(a, path, c + BLOCK, end)
      && acc + Children(a, np, c, end) == acc' + Children(a, np, c + BLOCK, end)
      && (|acc'| <= cap ==>
            ListScan(a, path, np, cap, c, acc, fuel) == ListScan(a, path, np, cap, c + BLOCK, acc', fuel))
      && (|acc'| > cap ==>
            ListScan(a, path, np, cap, c, acc, fuel) == Done(Promised(acc + Children(a, np, c, end), cap)))
  {
    BetweenStep(a, path, np, c, end);
    var acc', rest := acc + ChildAt(a, np, c), Children(a, np, c + BLOCK, end);
    assert acc + Children(a, np, c, end) == acc' + rest;
    if |acc'| <= cap {
      ListScanStep(a, path, np, cap, c, acc, fuel);
    } else {
      ListedIsDirectChild(np, NameAt(a, c));
      assert (acc' + rest)[..cap] == acc;
    }
  }

  /** Without a symbolic link named `path`, list returns the direct children
      of the normalised path in archive order: all of them with 1 (or 0 when
      there are none), or the first `cap` with -1 when there are more; it
      rewinds in every case. */
  lemma ListWithoutLink(a: seq<bv8>, path: CString, cap: nat, fuel: nat)
    requires NoLinkBetween(a, path, 0, |a|)
    ensures var kids := Children(a, Normalize(path), 0, |a|); var r := List(a, path, cap, fuel);
      && r.Done? && r.value.cursor == 0
      && (|kids| <= cap ==> r.value.entries == kids && r.value.count == |kids|
                            && r.value.ret == (if |kids| == 0 then 0 else 1))
      && (|kids| > cap ==> r.value.entries == kids[..cap] && r.value.count == cap && r.value.ret == -1)
  {
    ListScanCollects(a, path, Normalize(path), cap, 0, [], fuel);
    assert [] + Children(a, Normalize(path), 0, |a|) == Children(a, Normalize(path), 0, |a|);
  }

  /** Both reference definitions advance one block at a time. */
  lemma BetweenStep(a: seq<bv8>, path: CString, np: CString, c: nat, end: nat)
    requires c < end && HasBlock(a, c) && NoLinkBetween(a, path, c, end)
    ensures HasBlock(a, c) && !LinkNamed(a, c, path) && NoLinkBetween(a, path, c + BLOCK, end)
    ensures Children(a, np, c, end) == ChildAt(a, np, c) + Children(a, np, c + BLOCK, end)
  {
  }

  /** The listing loop passes over the blocks before `end`, none of them the
      link, writing the direct children among them. */
  lemma {:induction false} ListScanReaches(a: seq<bv8>, path: CString, np: CString, cap: nat,
                                           c: nat, acc: seq<CString>, fuel: nat, n: nat, end: nat)
    requires end == c + BLOCK * n && HasBlock(a, end)
    requires NoLinkBetween(a, path, c, end)
    requires |acc + Children(a, np, c, end)| <= cap
    ensures ListScan(a, path, np, cap, c, acc, fuel)
         == ListScan(a, path, np, cap, end, acc + Children(a, np, c, end), fuel)
    decreases n
  {
    if n == 0 {
      assert acc + [] == acc;
    } else {
      assert HasBlock(a, c);
      ScanStep(a, path, np, cap, c, acc, fuel, end);
      ListScanReaches(a, path, np, cap, c + BLOCK, acc + ChildAt(a, np, c), fuel, n - 1, end);
    }
  }

  /** The listing loop stops with -1, and rewinds, at the first direct child
      beyond the capacity when that child comes before `end` and no block
      before `end` is the link. */
  lemma {:induction false} ListScanOverflows(a: seq<bv8>, path: CString, np: CString, cap: nat,
                                             c: nat, acc: seq<CString>, fuel: nat, end: nat)
    requires |acc| <= cap
    requires NoLinkBetween(a, path, c, end)
    requires |acc + Children(a, np, c, end)| > cap
    ensures ListScan(a, path, np, cap, c, acc, fuel) == Done(Promised(acc + Children(a, np, c, end), cap))
    decreases |a| - c
  {
    if HasBlock(a, c) && c < end {
      ScanStep(a, path, np, cap, c, acc, fuel, end);
      var acc' := acc + ChildAt(a, np, c);
      if |acc'| <= cap {
        ListScanOverflows(a, path, np, cap, c + BLOCK, acc', fuel, end);
      }
    }
  }

  /** When more direct children than the capacity come before the first
      symbolic link named `path` (or before any offset `end` with no such link
      ahead of it), list returns -1 with the first `cap` of them and rewinds,
      without reaching the link. */
  lemma ListOverflowsBeforeLink(a: seq<bv8>, path: CString, cap: nat, fuel: nat, end: nat)
    requires NoLinkBetween(a, path, 0, end)
    requires |Children(a, Normalize(path), 0, end)| > cap
    ensures var kids := Children(a, Normalize(path), 0, end);
      List(a, path, cap, fuel) == Done(ListReply(-1, cap, kids[..cap], 0))
  {
    var kids := Children(a, Normalize(path), 0, end);
    assert [] + kids == kids;
    ListScanOverflows(a, path, Normalize(path), cap, 0, [], fuel, end);
  }

  /** When the first symbolic link named `path` is block n and the children
      before it fit, list asks is_file about the link's target from the
      cursor just past the link; when that fails it has rewound, so is_dir
      of the target plus '/' scans from offset 0; when that succeeds the
      result is exactly the listing of the target directory. Both failures
      return 0 and leave `*no_entries` at the capacity. */
  lemma ListThroughLink(a: seq<bv8>, path: CString, cap: nat, fuel: nat, n: nat)
    requires HasBlock(a, BLOCK * n) && LinkNamed(a, BLOCK * n, path)
    requires NoLinkBetween(a, path, 0, BLOCK * n)
    requires |Children(a, Normalize(path), 0, BLOCK * n)| <= cap
    ensures var p := BLOCK * n; var link := LinkAt(a, p);
      var before := Children(a, Normalize(path), 0, p);
      var f := IsFile(a, p + BLOCK, link); var d := IsDir(a, 0, link + [SLASH]);
      var r := List(a, path, cap, fuel);
      && (f.ret == 1 ==> r == Done(ListReply(0, cap, before, f.cursor)))
      && (f.ret != 1 && d.ret == 0 ==> r == Done(ListReply(0, cap, before, d.cursor)))
      && (f.ret != 1 && d.ret != 0 ==>
            r == if fuel == 0 then HopLimit else List(a, link + [SLASH], cap, fuel - 1))
  {
    var np := Normalize(path);
    ListScanReaches(a, path, np, cap, 0, [], fuel, n, BLOCK * n);
    assert [] + Children(a, np, 0, BLOCK * n) == Children(a, np, 0, BLOCK * n);
  }

  /** A listing that completes with some bound on the symbolic links it
      follows completes the same way with any larger bound. */
  lemma {:induction false} ListScanMoreFuel(a: seq<bv8>, path: CString, np: CString, cap: nat, c: nat,
                                            acc: seq<CString>, fuel: nat, more: nat)
    requires |acc| <= cap && fuel <= more && ListScan(a, path, np, cap, c, acc, fuel).Done?
    ensures ListScan(a, path, np, cap, c, acc, more) == ListScan(a, path, np, cap, c, acc, fuel)
    decreases fuel, |a| - c
  {
    if HasBlock(a, c) {
      if LinkNamed(a, c, path) {
        var link := LinkAt(a, c);
        var f := IsFile(a, c + BLOCK, link);
        var target := link + [SLASH];
        if f.ret != 1 && IsDir(a, f.cursor, target).ret != 0 {
          ListScanMoreFuel(a, target, Normalize(target), cap, 0, [], fuel - 1, more - 1);
        }
      } else if Listed(np, NameAt(a, c)) {
        if |acc| < cap {
          ListScanMoreFuel(a, path, np, cap, c + BLOCK, acc + [NameAt(a, c)], fuel, more);
        }
      } else {
        ListScanMoreFuel(a, path, np, cap, c + BLOCK, acc, fuel, more);
      }
    }
  }
}

=== FILE: octal.dfy ===
/** Numeric header fields: octal ASCII read the way `strtol(field, NULL, 8)`
    reads it, confined to the field's own bytes. */
module Octal {

  /** The bytes isspace accepts: space, and tab through carriage return. */
  predicate IsSpace(b: bv8) {
    b == 0x20 || (0x09 <= b && b <= 0x0D)
  }

  predicate IsOctalDigit(b: bv8) {
    0x30 <= b && b <= 0x37
  }

  predicate AllOctal(d: seq<bv8>) {
    forall i | 0 <= i < |d| :: IsOctalDigit(d[i])
  }

  function DigitValue(b: bv8): (v: nat)
    requires IsOctalDigit(b)
    ensures v < 8
  {
    (b - 0x30) as nat
  }

  function Pow8(n: nat): (r: nat)
    ensures r >= 1
  {
    if n == 0 then 1 else 8 * Pow8(n - 1)
  }

  /** The field after the leading white space strtol skips. */
  function SkipSpaces(f: seq<bv8>): (r: seq<bv8>)
    ensures |r| <= |f| && r == f[|f| - |r|..]
    ensures |r| > 0 ==> !IsSpace(r[0])
    ensures forall i | 0 <= i < |f| - |r| :: IsSpace(f[i])
  {
    if |f| > 0 && IsSpace(f[0]) then SkipSpaces(f[1..]) else f
  }

  /** The longest run of octal digits at the front of f. */
  function DigitRun(f: seq<bv8>): (r: seq<bv8>)
    ensures r <= f
    ensures AllOctal(r)
    ensures |r| < |f| ==> !IsOctalDigit(f[|r|])
  {
    if |f| > 0 && IsOctalDigit(f[0]) then [f[0]] + DigitRun(f[1..]) else []
  }

  /** The value of a string of octal digits, most significant digit first. */
  function OctalValue(d: seq<bv8>): (v: nat)
    requires AllOctal(d)
    ensures v < Pow8(|d|)
  {
    if |d| == 0 then 0 else 8 * OctalValue(d[..|d| - 1]) + DigitValue(d[|d| - 1])
  }

  /** TAR_INT: skip white space, then read octal digits up to the first byte
      that is not one (a NUL, a space, or the end of the field). */
  function TarInt(field: seq<bv8>): nat {
    OctalValue(DigitRun(SkipSpaces(field)))
  }

  /** A field with no octal digit after its leading white space reads as 0,
      as strtol does when it finds no digits. */
  lemma TarIntNoDigits(field: seq<bv8>)
    requires var s := SkipSpaces(field); |s| == 0 || !IsOctalDigit(s[0])
    ensures TarInt(field) == 0
  {
  }

  /** The ASCII digit for an octal digit value. */
  function DigitByte(d: nat): (b: bv8)
    requires d < 8
    ensures IsOctalDigit(b) && DigitValue(b) == d
  {
    [0x30, 0x31, 0x32, 0x33, 0x34, 0x35, 0x36, 0x37][d]
  }

  /** How an archiver writes a number: `width` octal digits, zero-padded. */
  function EncodeOctal(v: nat, width: nat): (r: seq<bv8>)
    ensures |r| == width
    ensures AllOctal(r)
  {
    if width == 0 then [] else EncodeOctal(v / 8, width - 1) + [DigitByte(v % 8)]
  }

  lemma {:induction false} OctalValueOfEncode(v: nat, width: nat)
    requires v < Pow8(width)
    ensures OctalValue(EncodeOctal(v, width)) == v
  {
    if width > 0 {
      var e, q, d := EncodeOctal(v, width), v / 8, v % 8;
      assert v == 8 * q + d;
      assert q < Pow8(width - 1);
      assert e[..width - 1] == EncodeOctal(q, width - 1);
      assert e[width - 1] == DigitByte(d);
      OctalValueOfEncode(q, width - 1);
    }
  }

  lemma {:induction false} DigitRunStopsAtNonDigit(d: seq<bv8>, rest: seq<bv8>)
    requires AllOctal(d)
    requires |rest| == 0 || !IsOctalDigit(rest[0])
    ensures DigitRun(d + rest) == d
  {
    if |d| > 0 {
      assert (d + rest)[1..] == d[1..] + rest;
      DigitRunStopsAtNonDigit(d[1..], rest);
    }
  }

  /** A number written as `width` octal digits and terminated by any byte
      that is not a digit (NUL or space, as archivers do) reads back as the
      same number. */
  lemma TarIntRoundTrip(v: nat, width: nat, rest: seq<bv8>)
    requires 0 < width && v < Pow8(width)
    requires |rest| == 0 || !IsOctalDigit(rest[0])
    ensures TarInt(EncodeOctal(v, width) + rest) == v
  {
    var e := EncodeOctal(v, width);
    var f := e + rest;
    assert f[0] == e[0] && IsOctalDigit(f[0]);
    assert !IsSpace(f[0]);
    assert SkipSpaces(f) == f;
    DigitRunStopsAtNonDigit(e, rest);
    OctalValueOfEncode(v, width);
  }
}

=== FILE: reader.dfy ===
/** `read_file`: a bounded read of a regular file's contents from an offset.

    It rewinds, then reads every block as a header (payloads are not
    skipped) up to the first block named with NUL or the first incomplete
    block. A header whose name equals the path exactly settles the read when
    it is a symbolic or hard link (the read starts over on the link's target)
    or a regular file (its payload is read); headers of other types with that
    name are passed over. */
module Reader {
  import opened CStrings
  import opened Ustar
  import opened Stream
  import opened Scan

  /** What `read_file` hands back: its return value, the final `*len`, the
      bytes written to `dest`, and the cursor. */
  datatype ReadReply = ReadReply(ret: int, len: nat, data: seq<bv8>, cursor: nat)

  /** The `size` bytes at `base`, or fewer when the archive ends first. */
  function Window(a: seq<bv8>, base: nat, size: nat): (w: seq<bv8>)
    requires base <= |a|
    ensures |w| <= size
    ensures base + size <= |a| ==> |w| == size
  {
    a[base .. Min(|a|, base + size)]
  }

  /** The file's contents as far as the archive holds them: the `size` bytes
      after its header, or fewer when the archive ends first. */
  function Payload(a: seq<bv8>, p: nat): seq<bv8>
    requires HasBlock(a, p)
  {
    Window(a, p + BLOCK, SizeAt(a, p))
  }

  /** Reading n bytes from `offset` within a window obtains bytes of the
      window as far as the archive holds it. */
  lemma WindowRead(a: seq<bv8>, base: nat, size: nat, offset: nat, n: nat)
    requires base <= |a| && offset + n <= size
    ensures var w := Window(a, base, size); var got := ReadCount(a, base + offset, n);
      && got == (if offset >= |w| then 0 else Min(n, |w| - offset))
      && (got > 0 ==> a[base + offset .. base + offset + got] == w[offset .. offset + got])
  {
    var w, got := Window(a, base, size), ReadCount(a, base + offset, n);
    if got > 0 {
      assert offset + got <= |w|;
      var x, y := a[base + offset .. base + offset + got], w[offset .. offset + got];
      forall k | 0 <= k < got
        ensures x[k] == y[k]
      {
        assert w[offset + k] == a[base + offset + k];
      }
      assert x == y;
    }
  }

  /** The read of a file of `size` bytes whose contents start at `base`, the
      cursor at `base`: seek `offset` bytes further, then read
      min(len, size - offset) bytes. */
  function ReadWindow(a: seq<bv8>, base: nat, size: nat, offset: nat, len: nat): (r: ReadReply)
    requires base <= |a|
    ensures r.len == |r.data| <= len
    ensures r.ret >= -2
    ensures r.ret == -2 <==> offset >= size
    ensures r.ret == -2 ==> r.len == 0 && r.cursor == base
    ensures r.ret == -1 <==> offset < size && (len == 0 || offset >= |Window(a, base, size)|)
    ensures r.ret == -1 ==> r.len == 0 && r.cursor == base + offset
    ensures r.ret >= 0 ==>
      && 0 < r.len == Min(len, |Window(a, base, size)| - offset)
      && r.data == Window(a, base, size)[offset .. offset + r.len]
      && r.len + r.ret == size - offset
      && r.cursor == base + offset + r.len
  {
    if offset >= size then ReadReply(-2, 0, [], base)
    else
      var start, n := base + offset, Min(size - offset, len);
      var got := ReadCount(a, start, n);
      WindowRead(a, base, size, offset, n);
      if got == 0 then ReadReply(-1, 0, [], start)
      else ReadReply(size - offset - got, got, a[start .. start + got], start + got)
  }

  /** The read of the regular file whose header is at p, the cursor just past
      that header. */
  function ReadPayload(a: seq<bv8>, p: nat, offset: nat, len: nat): (r: ReadReply)
    requires HasBlock(a, p)
    ensures r.len == |r.data| <= len
    ensures r.ret >= -2
    ensures r.ret == -2 <==> offset >= SizeAt(a, p)
    ensures r.ret == -2 ==> r.len == 0 && r.cursor == p + BLOCK
    ensures r.ret == -1 <==> offset < SizeAt(a, p) && (len == 0 || offset >= |Payload(a, p)|)
    ensures r.ret == -1 ==> r.len == 0 && r.cursor == p + BLOCK + offset
    ensures r.ret >= 0 ==>
      && 0 < r.len == Min(len, |Payload(a, p)| - offset)
      && r.data == Payload(a, p)[offset .. offset + r.len]
      && r.len + r.ret == SizeAt(a, p) - offset
      && r.cursor == p + BLOCK + offset + r.len
  {
    ReadWindow(a, p + BLOCK, SizeAt(a, p), offset, len)
  }

  /** The header at p settles a read of `path`. */
  predicate Settles(a: seq<bv8>, p: nat, path: CString)
    requires HasBlock(a, p)
  {
    NameAt(a, p) == path && (IsLink(a, p) || IsRegular(a, p))
  }

  /** The read loop from cursor c, following at most `fuel` links. */
  function ReadScan(a: seq<bv8>, path: CString, offset: nat, len: nat, c: nat, fuel: nat): (r: Hops<ReadReply>)
    ensures r.Done? ==> r.value.ret >= -2 && r.value.len == |r.value.data| <= len
    ensures r.Done? && r.value.ret < 0 ==> r.value.len == 0
    decreases fuel, |a| - c
  {
    if Stops(a, c) then Done(ReadReply(-1, 0, [], 0))
    else if NameAt(a, c) == path && IsLink(a, c) then
      if fuel == 0 then HopLimit else ReadScan(a, LinkAt(a, c), offset, len, 0, fuel - 1)
    else if NameAt(a, c) == path && IsRegular(a, c) then Done(ReadPayload(a, c, offset, len))
    else ReadScan(a, path, offset, len, c + BLOCK, fuel)
  }

  /** read_file(fd, path, offset, dest, &len), following at most `fuel`
      links. */
  function ReadFile(a: seq<bv8>, path: CString, offset: nat, len: nat, fuel: nat): (r: Hops<ReadReply>)
    ensures r.Done? ==> r.value.ret >= -2 && r.value.len == |r.value.data| <= len
    ensures r.Done? && r.value.ret < 0 ==> r.value.len == 0
  {
    ReadScan(a, path, offset, len, 0, fuel)
  }

  /** The k-th header of the scan from c is the first that settles the read. */
  ghost predicate FirstSettling(a: seq<bv8>, c: nat, path: CString, k: int) {
    var r := Run(a, c);
    && 0 <= k < |r|
    && Settles(a, r[k], path)
    && forall j | 0 <= j < k :: !Settles(a, r[j], path)
  }

  /** With no settling header in the scan the read fails with -1 and
      *len = 0, and leaves the cursor rewound. */
  lemma {:induction false} ReadScanNoSettler(a: seq<bv8>, path: CString, offset: nat, len: nat, c: nat, fuel: nat)
    requires forall k | 0 <= k < |Run(a, c)| :: !Settles(a, Run(a, c)[k], path)
    ensures ReadScan(a, path, offset, len, c, fuel) == Done(ReadReply(-1, 0, [], 0))
    decreases |a| - c
  {
    if !Stops(a, c) {
      var r, r' := Run(a, c), Run(a, c + BLOCK);
      assert r == [c] + r';
      assert !Settles(a, r[0], path);
      forall k | 0 <= k < |r'|
        ensures !Settles(a, r'[k], path)
      {
        assert r'[k] == r[k + 1];
      }
      ReadScanNoSettler(a, path, offset, len, c + BLOCK, fuel);
    }
  }

  /** The read is decided by the first settling header of the scan: a link
      restarts the read on its target, a regular file is read. */
  lemma {:induction false} ReadScanFirstSettler(a: seq<bv8>, path: CString, offset: nat, len: nat, c: nat,
                                                fuel: nat, k: nat)
    requires FirstSettling(a, c, path, k)
    ensures var p := Run(a, c)[k];
      ReadScan(a, path, offset, len, c, fuel)
        == if IsLink(a, p) then (if fuel == 0 then HopLimit else ReadFile(a, LinkAt(a, p), offset, len, fuel - 1))
           else Done(ReadPayload(a, p, offset, len))
    decreases k
  {
    var r, r' := Run(a, c), Run(a, c + BLOCK);
    assert r == [c] + r';
    if k > 0 {
      assert !Settles(a, r[0], path);
      forall j | 0 <= j < k - 1
        ensures !Settles(a, r'[j], path)
      {
        assert r'[j] == r[j + 1];
      }
      assert r'[k - 1] == r[k];
      ReadScanFirstSettler(a, path, offset, len, c + BLOCK, fuel, k - 1);
    }
  }

  /** read_file on the whole scan from offset 0: a path no header settles
      fails with -1; otherwise the first settling header decides. */
  lemma ReadFileResolves(a: seq<bv8>, path: CString, offset: nat, len: nat, fuel: nat)
    ensures (forall k | 0 <= k < |Run(a, 0)| :: !Settles(a, Run(a, 0)[k], path)) ==>
        ReadFile(a, path, offset, len, fuel) == Done(ReadReply(-1, 0, [], 0))
    ensures forall k: nat | FirstSettling(a, 0, path, k) ::
      ReadFile(a, path, offset, len, fuel)
        == if IsLink(a, Run(a, 0)[k]) then (if fuel == 0 then HopLimit else ReadFile(a, LinkAt(a, Run(a, 0)[k]), offset, len, fuel - 1))
           else Done(ReadPayload(a, Run(a, 0)[k], offset, len))
  {
    if forall k | 0 <= k < |Run(a, 0)| :: !Settles(a, Run(a, 0)[k], path) {
      ReadScanNoSettler(a, path, offset, len, 0, fuel);
    }
    forall k: nat | FirstSettling(a, 0, path, k)
      ensures ReadFile(a, path, offset, len, fuel)
        == if IsLink(a, Run(a, 0)[k]) then (if fuel == 0 then HopLimit else ReadFile(a, LinkAt(a, Run(a, 0)[k]), offset, len, fuel - 1))
           else Done(ReadPayload(a, Run(a, 0)[k], offset, len))
    {
      ReadScanFirstSettler(a, path, offset, len, 0, fuel, k);
    }
  }

  /** A read that completes with some bound on the links it follows completes
      the same way with any larger bound. */
  lemma {:induction false} ReadScanMoreFuel(a: seq<bv8>, path: CString, offset: nat, len: nat, c: nat,
                                            fuel: nat, more: nat)
    requires fuel <= more && ReadScan(a, path, offset, len, c, fuel).Done?
    ensures ReadScan(a, path, offset, len, c, more) == ReadScan(a, path, offset, len, c, fuel)
    decreases fuel, |a| - c
  {
    if !Stops(a, c) {
      if NameAt(a, c) == path && IsLink(a, c) {
        ReadScanMoreFuel(a, LinkAt(a, c), offset, len, 0, fuel - 1, more - 1);
      } else if !(NameAt(a, c) == path && IsRegular(a, c)) {
        ReadScanMoreFuel(a, path, offset, len, c + BLOCK, fuel, more);
      }
    }
  }

  /** Draining a file: after a partial read, reading on from where it stopped
      yields the next bytes of the contents, and the remaining count drops
      by the number of bytes obtained. */
  lemma ReadsResume(a: seq<bv8>, p: nat, offset: nat, len1: nat, len2: nat)
    requires HasBlock(a, p)
    requires ReadPayload(a, p, offset, len1).ret > 0
    ensures var r1 := ReadPayload(a, p, offset, len1);
      var r2 := ReadPayload(a, p, offset + r1.len, len2);
      && r2.ret != -2
      && (r2.ret >= 0 ==>
            && r1.data + r2.data == Payload(a, p)[offset .. offset + r1.len + r2.len]
            && r2.ret == r1.ret - r2.len)
  {
  }
}

=== FILE: scan.dfy ===
/** The existence and type queries: `exists`, `is_dir`, `is_file` and
    `is_symlink`.

    Each reads 512-byte blocks from the CURRENT cursor, treats every block as
    a header (payloads are not skipped), stops at the first block whose name
    begins with NUL or at the first incomplete block, and matches a block when
    its name starts with the query path (strncmp over the path's length, so
    "dir" matches "dir2/x"). */
module Scan {
  import opened CStrings
  import opened Ustar
  import opened Stream

  /** The header positions a query scan starting at cursor c examines, in
      order. */
  function Run(a: seq<bv8>, c: nat): (r: seq<nat>)
    ensures forall k | 0 <= k < |r| :: r[k] == c + BLOCK * k && !Stops(a, r[k])
    ensures Stops(a, c + BLOCK * |r|)
    decreases |a| - c
  {
    if Stops(a, c) then [] else [c] + Run(a, c + BLOCK)
  }

  /** The header at p matches the query path. */
  predicate Hits(a: seq<bv8>, p: nat, path: CString)
    requires HasBlock(a, p)
  {
    path <= NameAt(a, p)
  }

  /** The k-th block of the scan from c is the first one that matches. */
  ghost predicate FirstHit(a: seq<bv8>, c: nat, path: CString, k: int) {
    var r := Run(a, c);
    && 0 <= k < |r|
    && Hits(a, r[k], path)
    && forall j | 0 <= j < k :: !Hits(a, r[j], path)
  }

  ghost predicate NoHit(a: seq<bv8>, c: nat, path: CString) {
    var r := Run(a, c);
    forall k | 0 <= k < |r| :: !Hits(a, r[k], path)
  }

  /** How a query loop ends: at a matching header, at a block named with
      NUL, or on a short read that leaves the cursor at `cursor`. */
  datatype Stop = Match(at: nat) | Sentinel(at: nat) | Short(cursor: nat)

  /** The loop shared by the four queries. */
  function ScanPrefix(a: seq<bv8>, c: nat, path: CString): (s: Stop)
    ensures s.Match? ==> HasBlock(a, s.at) && s.at >= c
    ensures s.Sentinel? ==> HasBlock(a, s.at) && s.at >= c
    ensures s.Short? ==> s.cursor >= c && s.cursor >= |a|
    decreases |a| - c
  {
    if !HasBlock(a, c) then Short(AfterRead(a, c, BLOCK))
    else if a[c] == NUL then Sentinel(c)
    else if Hits(a, c, path) then Match(c)
    else ScanPrefix(a, c + BLOCK, path)
  }

  /** When the loop stops at a match, that header is the first of the scan
      to match. */
  lemma {:induction false} ScanPrefixMatch(a: seq<bv8>, c: nat, path: CString)
    requires ScanPrefix(a, c, path).Match?
    ensures exists k :: FirstHit(a, c, path, k) && ScanPrefix(a, c, path).at == Run(a, c)[k]
    decreases |a| - c
  {
    var r := Run(a, c);
    if Hits(a, c, path) {
      assert FirstHit(a, c, path, 0);
    } else {
      ScanPrefixMatch(a, c + BLOCK, path);
      var r' := Run(a, c + BLOCK);
      assert r == [c] + r';
      var k :| FirstHit(a, c + BLOCK, path, k) && ScanPrefix(a, c + BLOCK, path).at == r'[k];
      forall j | 0 <= j < k + 1
        ensures !Hits(a, r[j], path)
      {
        if j > 0 {
          assert r[j] == r'[j - 1];
        }
      }
      assert r[k + 1] == r'[k];
      assert FirstHit(a, c, path, k + 1);
    }
  }

  /** When the loop stops elsewhere, no header of the scan matches, and it
      stops at the block that ends the scan. */
  lemma {:induction false} ScanPrefixNoMatch(a: seq<bv8>, c: nat, path: CString)
    requires !ScanPrefix(a, c, path).Match?
    ensures NoHit(a, c, path)
    ensures ScanPrefix(a, c, path).Sentinel? ==> ScanPrefix(a, c, path).at == c + BLOCK * |Run(a, c)|
    ensures ScanPrefix(a, c, path).Short? ==>
      && !HasBlock(a, c + BLOCK * |Run(a, c)|)
      && ScanPrefix(a, c, path).cursor == AfterRead(a, c + BLOCK * |Run(a, c)|, BLOCK)
    decreases |a| - c
  {
    if !Stops(a, c) {
      ScanPrefixNoMatch(a, c + BLOCK, path);
      var r, r' := Run(a, c), Run(a, c + BLOCK);
      assert r == [c] + r';
      forall k | 0 <= k < |r|
        ensures !Hits(a, r[k], path)
      {
        if k > 0 {
          assert r[k] == r'[k - 1];
        }
      }
    }
  }

  /** The loop stops at the first matching header of the scan, and otherwise
      at the block that ends the scan. */
  lemma ScanPrefixFindsFirstHit(a: seq<bv8>, c: nat, path: CString)
    ensures var s := ScanPrefix(a, c, path);
      && (s.Match? ==> exists k :: FirstHit(a, c, path, k) && s.at == Run(a, c)[k])
      && (!s.Match? ==> NoHit(a, c, path))
      && (s.Sentinel? ==> s.at == c + BLOCK * |Run(a, c)|)
      && (s.Short? ==> !HasBlock(a, c + BLOCK * |Run(a, c)|) && s.cursor == AfterRead(a, c + BLOCK * |Run(a, c)|, BLOCK))
  {
    if ScanPrefix(a, c, path).Match? {
      ScanPrefixMatch(a, c, path);
    } else {
      ScanPrefixNoMatch(a, c, path);
    }
  }

  /** exists: 1 when some header of the scan starts with the path, leaving
      the cursor just past the first such header; otherwise 0 with the cursor
      rewound. */
  function Exists(a: seq<bv8>, c: nat, path: CString): (r: Answer)
    ensures r.ret == 0 || r.ret == 1
    ensures r.ret == 1 ==> r.cursor > c
    ensures r.ret == 0 ==> r.cursor == 0
  {
    match ScanPrefix(a, c, path)
    case Match(p) => Answer(1, p + BLOCK)
    case _ => Answer(0, 0)
  }

  /** is_dir: decided by the first matching header alone, and never
      rewinds. */
  function IsDir(a: seq<bv8>, c: nat, path: CString): (r: Answer)
    ensures r.ret == 0 || r.ret == 1
    ensures r.cursor >= c
  {
    match ScanPrefix(a, c, path)
    case Match(p) => Answer(if TypeAt(a, p) == DIRTYPE then 1 else 0, p + BLOCK)
    case Sentinel(p) => Answer(0, p + BLOCK)
    case Short(end) => Answer(0, end)
  }

  /** is_file: 1 when the first matching header is a regular file ('0' or
      NUL), leaving the cursor past it; otherwise 0 with the cursor rewound. */
  function IsFile(a: seq<bv8>, c: nat, path: CString): (r: Answer)
    ensures r.ret == 0 || r.ret == 1
    ensures r.ret == 1 ==> r.cursor > c
    ensures r.ret == 0 ==> r.cursor == 0
  {
    match ScanPrefix(a, c, path)
    case Match(p) => if IsRegular(a, p) then Answer(1, p + BLOCK) else Answer(0, 0)
    case _ => Answer(0, 0)
  }

  /** is_symlink: as is_file, for type '2'. */
  function IsSymlink(a: seq<bv8>, c: nat, path: CString): (r: Answer)
    ensures r.ret == 0 || r.ret == 1
    ensures r.ret == 1 ==> r.cursor > c
    ensures r.ret == 0 ==> r.cursor == 0
  {
    match ScanPrefix(a, c, path)
    case Match(p) => if TypeAt(a, p) == SYMTYPE then Answer(1, p + BLOCK) else Answer(0, 0)
    case _ => Answer(0, 0)
  }

  lemma ExistsSpec(a: seq<bv8>, c: nat, path: CString)
    ensures var e := Exists(a, c, path);
      && (e.ret == 1 <==> SomeHit(a, c, path))
      && (e.ret == 0 || e.ret == 1)
      && (e.ret == 0 ==> e.cursor == 0)
      && (e.ret == 1 ==> exists k :: FirstHit(a, c, path, k) && e.cursor == Run(a, c)[k] + BLOCK)
  {
    ScanPrefixFindsFirstHit(a, c, path);
  }

  lemma IsDirSpec(a: seq<bv8>, c: nat, path: CString)
    ensures var d := IsDir(a, c, path);
      && (d.ret == 1 <==> exists k :: FirstHit(a, c, path, k) && TypeAt(a, Run(a, c)[k]) == DIRTYPE)
      && (d.ret == 0 || d.ret == 1)
      && (SomeHit(a, c, path) ==> exists k :: FirstHit(a, c, path, k) && d.cursor == Run(a, c)[k] + BLOCK)
      && (!SomeHit(a, c, path) ==> var end := c + BLOCK * |Run(a, c)|;
            d.cursor == if HasBlock(a, end) then end + BLOCK else AfterRead(a, end, BLOCK))
      && (c < |a| ==> d.cursor > c)
  {
    ScanPrefixFindsFirstHit(a, c, path);
    SomeHitIffMatch(a, c, path);
  }

  lemma IsFileSpec(a: seq<bv8>, c: nat, path: CString)
    ensures var f := IsFile(a, c, path);
      && (f.ret == 1 <==> exists k :: FirstHit(a, c, path, k) && IsRegular(a, Run(a, c)[k]))
      && (f.ret == 0 || f.ret == 1)
      && (f.ret == 0 ==> f.cursor == 0)
      && (f.ret == 1 ==> exists k :: FirstHit(a, c, path, k) && f.cursor == Run(a, c)[k] + BLOCK)
  {
    ScanPrefixFindsFirstHit(a, c, path);
  }

  lemma IsSymlinkSpec(a: seq<bv8>, c: nat, path: CString)
    ensures var l := IsSymlink(a, c, path);
      && (l.ret == 1 <==> exists k :: FirstHit(a, c, path, k) && TypeAt(a, Run(a, c)[k]) == SYMTYPE)
      && (l.ret == 0 || l.ret == 1)
      && (l.ret == 0 ==> l.cursor == 0)
      && (l.ret == 1 ==> exists k :: FirstHit(a, c, path, k) && l.cursor == Run(a, c)[k] + BLOCK)
  {
    ScanPrefixFindsFirstHit(a, c, path);
  }

  /** The scan from just past one of its headers is the rest of the scan. */
  lemma {:induction false} RunSuffix(a: seq<bv8>, c: nat, k: nat)
    requires k < |Run(a, c)|
    ensures Run(a, Run(a, c)[k] + BLOCK) == Run(a, c)[k + 1..]
    decreases k
  {
    var r, r' := Run(a, c), Run(a, c + BLOCK);
    assert r == [c] + r';
    if k > 0 {
      RunSuffix(a, c + BLOCK, k - 1);
      assert r[k] == r'[k - 1];
      assert r[k + 1..] == r'[k..];
    }
  }

  lemma FirstHitUnique(a: seq<bv8>, c: nat, path: CString, k: int, k': int)
    requires FirstHit(a, c, path, k) && FirstHit(a, c, path, k')
    ensures k == k'
  {
  }

  /** Some header of the scan from c matches. */
  ghost predicate SomeHit(a: seq<bv8>, c: nat, path: CString) {
    exists i | 0 <= i < |Run(a, c)| :: Hits(a, Run(a, c)[i], path)
  }

  /** Some header of the scan from c after its k-th matches. */
  ghost predicate HitBeyond(a: seq<bv8>, c: nat, path: CString, k: nat) {
    exists j | k < j < |Run(a, c)| :: Hits(a, Run(a, c)[j], path)
  }

  /** A match exists in the scan from c exactly when the query loop stops
      at a match. */
  lemma SomeHitIffMatch(a: seq<bv8>, c: nat, path: CString)
    ensures ScanPrefix(a, c, path).Match? <==> SomeHit(a, c, path)
  {
    ScanPrefixFindsFirstHit(a, c, path);
  }

  /** The headers after the k-th of a scan are those of the scan that starts
      just past it, so a match lies after it in one exactly when in the
      other. */
  lemma HitAfter(a: seq<bv8>, c: nat, path: CString, k: nat)
    requires k < |Run(a, c)|
    ensures HitBeyond(a, c, path, k) <==> SomeHit(a, Run(a, c)[k] + BLOCK, path)
  {
    var r := Run(a, c);
    RunSuffix(a, c, k);
    var r' := Run(a, r[k] + BLOCK);
    assert r' == r[k + 1..];
    if HitBeyond(a, c, path, k) {
      var j :| k < j < |r| && Hits(a, r[j], path);
      assert r'[j - k - 1] == r[j];
    }
    if SomeHit(a, r[k] + BLOCK, path) {
      var i :| 0 <= i < |r'| && Hits(a, r'[i], path);
      assert r[k + 1 + i] == r'[i];
    }
  }

  /** exists does not rewind on success: a second call with the same path
      resumes after the first matching header, and answers 1 only when a
      later header of the scan also matches. */
  lemma ExistsResumes(a: seq<bv8>, c: nat, path: CString, k: nat)
    requires FirstHit(a, c, path, k)
    ensures Exists(a, c, path).cursor == Run(a, c)[k] + BLOCK
    ensures Exists(a, Run(a, c)[k] + BLOCK, path).ret == 1
        <==> exists j | k < j < |Run(a, c)| :: Hits(a, Run(a, c)[j], path)
  {
    var r := Run(a, c);
    SomeHitIffMatch(a, c, path);
    assert SomeHit(a, c, path);
    ScanPrefixMatch(a, c, path);
    var k' :| FirstHit(a, c, path, k') && ScanPrefix(a, c, path).at == r[k'];
    FirstHitUnique(a, c, path, k, k');
    SomeHitIffMatch(a, r[k] + BLOCK, path);
    HitAfter(a, c, path, k);
  }
}

=== FILE: stream.dfy ===
/** The file descriptor as the archive functions use it: an immutable byte
    sequence and an explicit cursor. `read` obtains at most the requested
    number of bytes and stops at the end of the archive; `lseek` sets the
    cursor, possibly past the end. */
module Stream {

  /** What an archive function hands back: its return value and the cursor it
      leaves behind. */
  datatype Answer = Answer(ret: int, cursor: nat)

  /** The outcome of a function that follows links: `HopLimit` when the
      bound on the number of links followed runs out. */
  datatype Hops<T> = Done(value: T) | HopLimit

  function Min(x: nat, y: nat): nat {
    if x <= y then x else y
  }

  /** The number of bytes `read(fd, buf, n)` obtains at cursor c. */
  function ReadCount(a: seq<bv8>, c: nat, n: nat): (r: nat)
    ensures r <= n
    ensures r == 0 || c + r <= |a|
    ensures r < n ==> c + r >= |a|
  {
    if c >= |a| then 0 else Min(n, |a| - c)
  }

  /** The cursor after `read(fd, buf, n)` at cursor c. */
  function AfterRead(a: seq<bv8>, c: nat, n: nat): nat {
    c + ReadCount(a, c, n)
  }
}

=== FILE: ustar.dfy ===
/** The POSIX ustar header block (the "ustar Interchange Format" of the pax
    utility, IEEE Std 1003.1-2017): field offsets, type flags, the magic and
    version tokens, and the header checksum.

    The archive is one immutable byte sequence `a`; a header is the 512-byte
    block that starts at position `p` of it. */
module Ustar {
  import opened CStrings
  import opened Octal

  const BLOCK: nat := 512

  const NAME_AT: nat := 0
  const NAME_LEN: nat := 100
  const SIZE_AT: nat := 124
  const SIZE_LEN: nat := 12
  const CHKSUM_AT: nat := 148
  const CHKSUM_LEN: nat := 8
  const TYPEFLAG_AT: nat := 156
  const LINKNAME_AT: nat := 157
  const LINKNAME_LEN: nat := 100
  const MAGIC_AT: nat := 257
  const MAGIC_LEN: nat := 6
  const VERSION_AT: nat := 263
  const VERSION_LEN: nat := 2

  /** Type flags: '0' and NUL are regular files, '1' a hard link, '2' a
      symbolic link, '5' a directory. */
  const REGTYPE: bv8 := 0x30
  const AREGTYPE: bv8 := 0x00
  const LNKTYPE: bv8 := 0x31
  const SYMTYPE: bv8 := 0x32
  const DIRTYPE: bv8 := 0x35

  /** "ustar" followed by its NUL, and "00" with no NUL. */
  const TMAGIC: seq<bv8> := [0x75, 0x73, 0x74, 0x61, 0x72, 0x00]
  const TVERSION: seq<bv8> := [0x30, 0x30]

  /** The value every chksum byte takes while the checksum is computed. */
  const BLANK: bv8 := 0x20

  /** A whole block starts at p. */
  predicate HasBlock(a: seq<bv8>, p: nat) {
    p + BLOCK <= |a|
  }

  /** The block at p ends a walk over the headers: it is incomplete or its
      name begins with NUL. */
  predicate Stops(a: seq<bv8>, p: nat) {
    !HasBlock(a, p) || a[p] == NUL
  }

  function Field(a: seq<bv8>, p: nat, at: nat, len: nat): (f: seq<bv8>)
    requires HasBlock(a, p) && at + len <= BLOCK
    ensures |f| == len
  {
    a[p + at .. p + at + len]
  }

  function NameAt(a: seq<bv8>, p: nat): CString
    requires HasBlock(a, p)
  {
    CStr(Field(a, p, NAME_AT, NAME_LEN))
  }

  function LinkAt(a: seq<bv8>, p: nat): CString
    requires HasBlock(a, p)
  {
    CStr(Field(a, p, LINKNAME_AT, LINKNAME_LEN))
  }

  function TypeAt(a: seq<bv8>, p: nat): bv8
    requires HasBlock(a, p)
  {
    a[p + TYPEFLAG_AT]
  }

  function SizeAt(a: seq<bv8>, p: nat): nat
    requires HasBlock(a, p)
  {
    TarInt(Field(a, p, SIZE_AT, SIZE_LEN))
  }

  predicate IsRegular(a: seq<bv8>, p: nat)
    requires HasBlock(a, p)
  {
    TypeAt(a, p) == REGTYPE || TypeAt(a, p) == AREGTYPE
  }

  predicate IsLink(a: seq<bv8>, p: nat)
    requires HasBlock(a, p)
  {
    TypeAt(a, p) == SYMTYPE || TypeAt(a, p) == LNKTYPE
  }

  /** strncmp(magic, "ustar", 6): the six bytes equal "ustar" and its NUL. */
  predicate MagicOk(a: seq<bv8>, p: nat)
    requires HasBlock(a, p)
  {
    Field(a, p, MAGIC_AT, MAGIC_LEN) == TMAGIC
  }

  /** strncmp(version, "00", 2). */
  predicate VersionOk(a: seq<bv8>, p: nat)
    requires HasBlock(a, p)
  {
    Field(a, p, VERSION_AT, VERSION_LEN) == TVERSION
  }

  /** Unsigned sum of bytes. */
  function Sum(s: seq<bv8>): (r: nat)
    ensures r <= 255 * |s|
  {
    if |s| == 0 then 0 else Sum(s[..|s| - 1]) + s[|s| - 1] as nat
  }

  lemma {:induction false} SumConcat(x: seq<bv8>, y: seq<bv8>)
    ensures Sum(x + y) == Sum(x) + Sum(y)
  {
    if |y| > 0 {
      assert (x + y)[..|x + y| - 1] == x + y[..|y| - 1];
      SumConcat(x, y[..|y| - 1]);
    } else {
      assert x + y == x;
    }
  }

  lemma {:induction false} SumBlanks(n: nat)
    ensures Sum(seq(n, _ => BLANK)) == 0x20 * n
  {
    if n > 0 {
      assert seq(n, _ => BLANK)[..n - 1] == seq(n - 1, _ => BLANK);
      SumBlanks(n - 1);
    }
  }

  /** The header block with its chksum field overwritten by spaces. */
  function Blanked(a: seq<bv8>, p: nat): (h: seq<bv8>)
    requires HasBlock(a, p)
  {
    a[p .. p + CHKSUM_AT] + seq(CHKSUM_LEN, _ => BLANK) + a[p + CHKSUM_AT + CHKSUM_LEN .. p + BLOCK]
  }

  /** The checksum the reader computes: the unsigned sum of the blanked block. */
  function ComputedChecksum(a: seq<bv8>, p: nat): nat
    requires HasBlock(a, p)
  {
    Sum(Blanked(a, p))
  }

  /** The checksum the header records, decoded before the blanking. */
  function StoredChecksum(a: seq<bv8>, p: nat): nat
    requires HasBlock(a, p)
  {
    TarInt(Field(a, p, CHKSUM_AT, CHKSUM_LEN))
  }

  predicate ChecksumOk(a: seq<bv8>, p: nat)
    requires HasBlock(a, p)
  {
    StoredChecksum(a, p) == ComputedChecksum(a, p)
  }

  /** A header passes all three checks of the validator. */
  predicate HeaderOk(a: seq<bv8>, p: nat)
    requires HasBlock(a, p)
  {
    MagicOk(a, p) && VersionOk(a, p) && ChecksumOk(a, p)
  }

  /** The computed checksum is the plain byte sum of the block with the eight
      stored chksum bytes traded for eight spaces; so it lies between 256 (a
      block of zeros) and 504 * 255 + 256, below 512 * 255. */
  lemma ComputedChecksumMeaning(a: seq<bv8>, p: nat)
    requires HasBlock(a, p)
    ensures ComputedChecksum(a, p) + Sum(Field(a, p, CHKSUM_AT, CHKSUM_LEN))
         == Sum(a[p .. p + BLOCK]) + 8 * 0x20
    ensures 256 <= ComputedChecksum(a, p) <= 504 * 255 + 256 < 512 * 255
  {
    var pre := a[p .. p + CHKSUM_AT];
    var fld := Field(a, p, CHKSUM_AT, CHKSUM_LEN);
    var post := a[p + CHKSUM_AT + CHKSUM_LEN .. p + BLOCK];
    var blanks := seq(CHKSUM_LEN, _ => BLANK);
    assert a[p .. p + BLOCK] == pre + fld + post;
    SumConcat(pre, fld);
    SumConcat(pre + fld, post);
    SumConcat(pre, blanks);
    SumConcat(pre + blanks, post);
    SumBlanks(CHKSUM_LEN);
  }

  /** The payload that follows a header occupies whole blocks:
      ceil(size / 512) * 512 bytes. */
  function Padded(size: nat): (r: nat)
    ensures r % BLOCK == 0
    ensures size <= r < size + BLOCK
  {
    ((size + 511) / 512) * 512
  }
}
